=== FILE: README.md ===
# Pointer-event data model (Qt GUI kernel, `qevent.h`)

This project models the data model behind Qt's pointer events and proves properties about it.

- **QEventPoint** is the record of one contact: a finger, a stylus or the mouse. It stores three current positions: local, scene and global. It also stores three global anchors: press, grab and last.
  - Every press, grab or last position in the local or scene frame is derived as `globalAnchor - globalPosition + currentPosition`. The lemmas prove that this keeps the frames consistent.
  - The point also carries a per-point acceptance flag, a weak exclusive grabber and an ordered list of weak passive grabbers.
- **The input-event envelope** is QInputEvent: device, keyboard modifiers and timestamp, with setters for the last two.
- **The polymorphic QPointerEvent** has two shapes:
  - QSinglePointEvent holds one point. Its subclasses are mouse, enter, hover, wheel, tablet and native gesture, and each adds its own fields.
  - QTouchEvent holds a list of points.
- **The acceptance logic of QDropEvent and QDragMoveEvent.**

How the model is built:
- Coordinates are exact `real`s, so the vector identities hold exactly.
- `EventPoints.EventPoint` is a class. Its setters update its fields in place. Its derived positions are functions that only read.
- `PointerEvents.PointerEvent` is a class:
  - its modifiers and timestamp can be set;
  - its device is fixed;
  - its `shape` is fixed, a datatype `SinglePoint(...)` or `Touch(points, ...)` holding the point objects.
- The points of a touch event are distinct objects, because QList stores QEventPoints by value. This is the event's `Valid()` predicate. It is what makes a write to one point leave the others unchanged.
- A `QPointer<QObject>` is modelled as the raw reference it stores, read against the set `live` of objects not yet destroyed (`Handles.Data`). The object graph and object lifetimes belong to the rest of the application, so `live` is a parameter.
  - The model assumes that object identities are never reused and that an object, once removed from the `live` sets that callers pass in, is never added back. Under that assumption a guarded reference to a destroyed object reads null from then on. No member relates two `live` sets, so the model itself does not enforce this.
  - Nothing in the model can yield a destroyed object.
- The bodies of `setAccepted`, `setExclusiveGrabber`, `setPassiveGrabbers` and `clearPassiveGrabbers` are in `qevent.cpp`, which is not part of this model.
  - They are modelled as last-write-wins stores.
  - `setExclusiveGrabber` also records the grab anchor at the current global position. This is what `globalGrabPosition()` means: where the point was when it was grabbed.
- `QTouchEvent::touchPointStates()` returns a stored mask, and the header does not show how that mask is computed. It is modelled as a stored value. It is not claimed to be the OR of the points' states.

## Model

| member | source | states |
|---|---|---|
| `Types.ULongSub` | src/gui/kernel/qevent.h:157 | `ulong` subtraction: the plain difference when no wrap occurs, otherwise the difference plus 2^64 |
| `Handles.Data` | src/gui/kernel/qevent.h:178 | a QPointer reads as its object exactly when that object is still alive, and as null otherwise; it never yields a destroyed object |
| `Handles.ReadAll` | src/gui/kernel/qevent.h:179 | walking a list of QPointers gives one entry per element, in order, each the element read through its guard |
| `Handles.DestroyClearsOnlyThatObject` | src/gui/kernel/qevent.h:178 | destroying object o makes a reference to o read null and leaves every other reference unchanged |
| `Handles.DestroyInList` | src/gui/kernel/qevent.h:166 | after o is destroyed, the passive-grabber list keeps its length and order, no entry yields o, and entries not referring to o read as before |
| `EventPoints.EventPoint.PressPosition` | src/gui/kernel/qevent.h:114 | the local press position minus the local position equals globalPressPosition minus globalPosition |
| `EventPoints.EventPoint.GrabPosition` | src/gui/kernel/qevent.h:115 | the local grab position minus the local position equals globalGrabPosition minus globalPosition |
| `EventPoints.EventPoint.LastPosition` | src/gui/kernel/qevent.h:116 | the local last position minus the local position equals globalLastPosition minus globalPosition |
| `EventPoints.EventPoint.ScenePressPosition` | src/gui/kernel/qevent.h:118 | the scene press position minus the scene position equals globalPressPosition minus globalPosition |
| `EventPoints.EventPoint.SceneGrabPosition` | src/gui/kernel/qevent.h:119 | the scene grab position minus the scene position equals globalGrabPosition minus globalPosition |
| `EventPoints.EventPoint.SceneLastPosition` | src/gui/kernel/qevent.h:120 | the scene last position minus the scene position equals globalLastPosition minus globalPosition |
| `EventPoints.EventPoint.GlobalAnchor` | src/gui/kernel/qevent.h:122-124 | globalPressPosition(), globalGrabPosition() and globalLastPosition() return the stored anchors, and each stored anchor is recovered from the local frame as globalPosition plus the local offset to that anchor |
| `EventPoints.EventPoint.OffsetsAgree` | src/gui/kernel/qevent.h:113-124 | for each anchor (press, grab, last), the offset from the current position to the anchor is the same in the local, scene and global frames |
| `EventPoints.EventPoint.AtAnchorMeansAtCurrent` | src/gui/kernel/qevent.h:113-124 | if globalPosition equals an anchor's global position, then that anchor's local and scene positions equal position() and scenePosition() |
| `EventPoints.EventPoint.AnchorsFollowFrame` | src/gui/kernel/qevent.h:114-120 | no drift: with the local (scene) frame's origin at o now, each derived local (scene) anchor is the global anchor minus o, however the receiver moved since the anchor was taken |
| `EventPoints.MovedReceiverScenario` | src/gui/kernel/qevent.h:114 | pressed at global (10,10), now at global (12,10) and local (7,5) with the receiver moved to (5,5): pressPosition() is (5,5) |
| `EventPoints.EventPoint.TimeHeld` | src/gui/kernel/qevent.h:157 | timeHeld is never negative; it is (timestamp minus pressTimestamp)/1000 when timestamps are in order, and it wraps through 2^64 otherwise |
| `EventPoints.EventPoint.ExclusiveGrabber` | src/gui/kernel/qevent.h:164 | the exclusive grabber is returned while it is alive and reads null once it is destroyed |
| `EventPoints.EventPoint.SetAccepted` | src/gui/kernel/qevent.h:162-163 | after setAccepted(b), isAccepted() is b; only the point's acceptance flag changes |
| `EventPoints.EventPoint.SetExclusiveGrabber` | src/gui/kernel/qevent.h:164-165 | last write wins: exclusiveGrabber() returns the new grabber while it is alive and null after it is destroyed; the grab anchor moves to the current position, so grabPosition() equals position() and sceneGrabPosition() equals scenePosition(); nothing else changes |
| `EventPoints.EventPoint.SetPassiveGrabbers` | src/gui/kernel/qevent.h:166-167 | passiveGrabbers() becomes exactly the given list, with order and duplicates kept; nothing else changes |
| `EventPoints.EventPoint.ClearPassiveGrabbers` | src/gui/kernel/qevent.h:168 | passiveGrabbers() becomes empty; nothing else changes |
| `PointerEvents.PointerEvent.constructor` | src/gui/kernel/qevent.h:924-927 | the event has the given device, modifiers and point(s); the points of a touch event must be distinct objects, as copies held by value are, and the new event is `Valid()` |
| `PointerEvents.PointerEvent.DeviceType` | src/gui/kernel/qevent.h:78 | deviceType() is Unknown when there is no device, and the device's type otherwise |
| `PointerEvents.PointerEvent.PointerType` | src/gui/kernel/qevent.h:205-207 | pointerType() is Unknown when there is no device, and the device's pointer type otherwise |
| `PointerEvents.PointerEvent.SetModifiers` | src/gui/kernel/qevent.h:79-80 | after setModifiers(m), modifiers() is m and the timestamp is unchanged |
| `PointerEvents.PointerEvent.SetTimestamp` | src/gui/kernel/qevent.h:81-82 | after setTimestamp(t), timestamp() is t and the modifiers are unchanged |
| `PointerEvents.PointerEvent.PointCount` | src/gui/kernel/qevent.h:200 | pointCount() is always 1 for a single-point event and the length of the point list for a touch event |
| `PointerEvents.PointerEvent.Point` | src/gui/kernel/qevent.h:201 | point(i) needs 0 <= i < pointCount(), so a single-point event accepts only i == 0 and returns its point; a touch event returns its i-th stored point |
| `PointerEvents.PointerEvent.TouchPoints` | src/gui/kernel/qevent.h:938-943 | touchPoints() has pointCount() elements, and its i-th element is point(i) |
| `PointerEvents.PointerEvent.Position` | src/gui/kernel/qevent.h:223 | a single-point event's position() is point(0)'s position |
| `PointerEvents.PointerEvent.ScenePosition` | src/gui/kernel/qevent.h:224 | a single-point event's scenePosition() is point(0)'s scene position |
| `PointerEvents.PointerEvent.GlobalPosition` | src/gui/kernel/qevent.h:225 | a single-point event's globalPosition() is point(0)'s global position |
| `PointerEvents.PointerEvent.Pressure` | src/gui/kernel/qevent.h:408 | a tablet event's pressure() is point(0)'s pressure |
| `PointerEvents.PointerEvent.Rotation` | src/gui/kernel/qevent.h:409 | a tablet event's rotation() is point(0)'s rotation |
| `PointerEvents.AcceptPoint` | src/gui/kernel/qevent.h:162-163 | setting the acceptance of point(i) sets that flag and leaves every other point of the event entirely unchanged |
| `PointerEvents.GrabPoint` | src/gui/kernel/qevent.h:164-165 | setting the exclusive grabber of point(i) stores it, makes that point's grabPosition() equal its position(), and leaves every other point of the event entirely unchanged |
| `DragDrop.DropEvent.Accept` | src/gui/kernel/qevent.h:764 | accept() marks the event accepted |
| `DragDrop.DropEvent.Ignore` | src/gui/kernel/qevent.h:765 | ignore() marks the event not accepted |
| `DragDrop.DropEvent.AcceptProposedAction` | src/gui/kernel/qevent.h:735 | after acceptProposedAction(), dropAction() equals proposedAction() and the event is accepted; nothing else changes |
| `DragDrop.DropEvent.AcceptRect` | src/gui/kernel/qevent.h:767 | a drag-move event's accept(r) accepts the event and makes answerRect() equal to r |
| `DragDrop.DropEvent.IgnoreRect` | src/gui/kernel/qevent.h:768 | a drag-move event's ignore(r) ignores the event and makes answerRect() equal to r |

## Left out

- Floating point: `qreal` and `QPointF` are exact reals here. In doubles, the `a - b + c` identities hold only up to rounding, and `timeHeld()`'s division by 1000 rounds.
- The deprecated integer accessors (`toPoint()`, `qRound`, for example `QHoverEvent::oldPos`) depend on float-to-int rounding.
- Constructors whose bodies live in `qevent.cpp` are not modelled. These are the QEventPoint, QSinglePointEvent subclass, QTouchEvent and QDropEvent constructors. So there is no model of:
  - how the drop event's proposed action is chosen;
  - how the touch-point state mask is computed;
  - the parent back-pointer `event()`.

  `PointerEvent.constructor` only records its arguments. It keeps the header's default arguments: no device (QTouchEvent's default), `Qt::NoModifier`, and, through the `Shape` datatype's defaults, `Qt::NoButton` for the button and the button mask and an empty touch-point list. The model's constructor takes the shape first, so the defaulted arguments come after it.
- `PointerEvents.PointerEvent.constructor`: the device default is QTouchEvent's null device for every shape. QEnterEvent, QMouseEvent, QHoverEvent and QWheelEvent default to `QPointingDevice::primaryPointingDevice()`, and QSinglePointEvent, QTabletEvent and QNativeGestureEvent have no device default. The model has no `primaryPointingDevice()`, so a single-point event must be given its device explicitly; built without one, it reports an unknown device type and pointer type.
- `PointerEvents.PointerEvent.constructor`: the event keeps the caller's point objects instead of copying them, so two events built from the same objects share points; within one touch event the points are required to be distinct.
- `EventPoints.EventPoint.SetExclusiveGrabber`: the body is not visible. Any early return when the same grabber is set again, which would skip re-taking the grab anchor, is not modelled. Debug logging is left out.
- Declared-only members whose bodies are not part of this model:
  - `normalizedPos`, `startNormalizedPos`, `lastNormalizedPos`;
  - `pointingDevice()`, modelled as the event's device;
  - `QMouseEvent::source`/`flags`;
  - `QDropEvent::setDropAction`/`source`;
  - the `QDebug` stream operators.
- Internal bit-fields with no accessor in the header are not modelled: `m_stationaryWithModifiedProperty`, `m_doubleClick` and `m_reserved`.
- The reserved, unused `qint64 m_extra` field of QInputEvent is not modelled.
- `m_source` is modelled only for wheel events (`QWheelEvent::source()`); `QMouseEvent::source()` is declared only.
- QEvent's own accept/ignore flag on pointer events is not modelled. QEvent is declared in `qcoreevent.h`, which is not part of this model. The drop events model that flag themselves.
- The event classes that are not pointer or drop events are not modelled: key, focus, paint, move, expose, input method, scroll and the others. `QMimeData`, `QRegion`, `QUrl`, `QVariant` and the meta-object machinery (`Q_GADGET`, `Q_FLAG`) are left out too.
- Which consumer receives unaccepted points is decided by the event-delivery layer, which lies outside this header. So is the lifetime of grabber objects: that layer is represented only by the `live` set.
- Platform size of `ulong`: the model assumes an LP64 platform, where `ulong` is 64 bits.

=== FILE: drag_drop.dfy ===
/** QDropEvent and its subclasses QDragMoveEvent and QDragEnterEvent:
    the acceptance logic. `accepted` is the generic event flag that
    QEvent::accept() sets and QEvent::ignore() clears. */
module DragDrop {
  import opened Types
  import opened Qt

  /** Which class of the drop family the event is. */
  datatype DropKind = Drop | DragMove | DragEnter

  class DropEvent {
    const kind: DropKind
    const position: PointF
    const buttons: MouseButtons
    const modifiers: KeyboardModifiers
    const possibleActions: DropActions
    const proposedAction: DropAction
    var dropAction: DropAction
    var accepted: bool
    /** QDragMoveEvent's rect: meaningful only when IsDragMove(). */
    var answerRect: Rect

    /** A QDragMoveEvent (a QDragEnterEvent is one too). */
    predicate IsDragMove()
    {
      kind == DragMove || kind == DragEnter
    }

    /** QEvent::accept() */
    method Accept()
      modifies this`accepted
      ensures accepted
    {
      accepted := true;
    }

    /** QEvent::ignore() */
    method Ignore()
      modifies this`accepted
      ensures !accepted
    {
      accepted := false;
    }

    /** acceptProposedAction(): the drop action becomes the proposed one
        and the event is accepted. */
    method AcceptProposedAction()
      modifies this`dropAction, this`accepted
      ensures dropAction == proposedAction
      ensures accepted
    {
      dropAction := proposedAction;
      Accept();
    }

    /** QDragMoveEvent::accept(r): accept and remember the answer
        rectangle. */
    method AcceptRect(r: Rect)
      requires IsDragMove()
      modifies this`accepted, this`answerRect
      ensures accepted && answerRect == r
    {
      Accept();
      answerRect := r;
    }

    /** QDragMoveEvent::ignore(r): ignore and remember the answer
        rectangle. */
    method IgnoreRect(r: Rect)
      requires IsDragMove()
      modifies this`accepted, this`answerRect
      ensures !accepted && answerRect == r
    {
      Ignore();
      answerRect := r;
    }
  }
}

=== FILE: event_point.dfy ===
/** QEventPoint: the record of one contact (finger, stylus or mouse pointer)
    in one event.

    Only three current positions (local, scene, global) and three global
    anchors (press, grab, last) are stored. Every press, grab or last
    position in the local or scene frame is derived on demand as
    `globalAnchor - globalPosition + currentPositionInThatFrame`, so the
    three frames cannot drift apart. */
module EventPoints {
  import opened Types
  import opened Handles

  /** QEventPoint::State: the lifecycle state reported for a point. */
  datatype State = Unknown | Stationary | Pressed | Updated | Released

  /** QEventPoint::States, the flags type over State. `Unknown` is the
      empty mask, so it is never a member. */
  type States = s: set<State> | Unknown !in s

  /** The three remembered positions. */
  datatype Anchor = PressAnchor | GrabAnchor | LastAnchor

  class EventPoint {
    var pointId: int
    var state: State
    var pos: PointF
    var scenePos: PointF
    var globalPos: PointF
    var globalPressPos: PointF
    var globalGrabPos: PointF
    var globalLastPos: PointF
    var pressure: real
    var rotation: real
    var ellipseDiameters: SizeF
    var velocity: Vector2D
    var exclusiveGrabber: ObjRef
    var passiveGrabbers: seq<ObjRef>
    var timestamp: ULong
    var pressTimestamp: ULong
    var uniqueId: int
    var accept: bool

    /** pressPosition(): the press position in the receiver's local frame;
        its offset from the current local position is the global offset. */
    function PressPosition(): (r: PointF)
      reads this
      ensures Minus(r, pos) == Minus(globalPressPos, globalPos)
    {
      Plus(Minus(globalPressPos, globalPos), pos)
    }

    /** grabPosition() */
    function GrabPosition(): (r: PointF)
      reads this
      ensures Minus(r, pos) == Minus(globalGrabPos, globalPos)
    {
      Plus(Minus(globalGrabPos, globalPos), pos)
    }

    /** lastPosition() */
    function LastPosition(): (r: PointF)
      reads this
      ensures Minus(r, pos) == Minus(globalLastPos, globalPos)
    {
      Plus(Minus(globalLastPos, globalPos), pos)
    }

    /** scenePressPosition() */
    function ScenePressPosition(): (r: PointF)
      reads this
      ensures Minus(r, scenePos) == Minus(globalPressPos, globalPos)
    {
      Plus(Minus(globalPressPos, globalPos), scenePos)
    }

    /** sceneGrabPosition() */
    function SceneGrabPosition(): (r: PointF)
      reads this
      ensures Minus(r, scenePos) == Minus(globalGrabPos, globalPos)
    {
      Plus(Minus(globalGrabPos, globalPos), scenePos)
    }

    /** sceneLastPosition() */
    function SceneLastPosition(): (r: PointF)
      reads this
      ensures Minus(r, scenePos) == Minus(globalLastPos, globalPos)
    {
      Plus(Minus(globalLastPos, globalPos), scenePos)
    }

    /** globalPressPosition(), globalGrabPosition(), globalLastPosition():
        the stored anchors, which the local frame determines back. */
    function GlobalAnchor(a: Anchor): (r: PointF)
      reads this
      ensures a == PressAnchor ==> r == globalPressPos
      ensures a == GrabAnchor ==> r == globalGrabPos
      ensures a == LastAnchor ==> r == globalLastPos
      ensures r == Plus(globalPos, Minus(LocalAnchor(a), pos))
    {
      match a
      case PressAnchor => globalPressPos
      case GrabAnchor => globalGrabPos
      case LastAnchor => globalLastPos
    }

    /** The derived local-frame position of anchor `a`. */
    function LocalAnchor(a: Anchor): PointF
      reads this
    {
      match a
      case PressAnchor => PressPosition()
      case GrabAnchor => GrabPosition()
      case LastAnchor => LastPosition()
    }

    /** The derived scene-frame position of anchor `a`. */
    function SceneAnchor(a: Anchor): PointF
      reads this
    {
      match a
      case PressAnchor => ScenePressPosition()
      case GrabAnchor => SceneGrabPosition()
      case LastAnchor => SceneLastPosition()
    }

    /** For every anchor, the vector from the current position to the
        anchor is the same in all three frames. */
    lemma OffsetsAgree(a: Anchor)
      ensures Minus(LocalAnchor(a), pos) == Minus(GlobalAnchor(a), globalPos)
      ensures Minus(SceneAnchor(a), scenePos) == Minus(GlobalAnchor(a), globalPos)
    {
    }

    /** A point that is at its anchor globally is at it in every frame:
        the derived local and scene anchors are the current positions. */
    lemma AtAnchorMeansAtCurrent(a: Anchor)
      requires globalPos == GlobalAnchor(a)
      ensures LocalAnchor(a) == pos
      ensures SceneAnchor(a) == scenePos
    {
    }

    /** No drift: if the local frame's origin sits at `origin` in global
        coordinates now (wherever the receiver has moved since the anchor
        was recorded), the derived local anchor is the global anchor
        translated into that frame; likewise for the scene frame. */
    lemma AnchorsFollowFrame(a: Anchor, origin: PointF, sceneOrigin: PointF)
      requires pos == Minus(globalPos, origin)
      requires scenePos == Minus(globalPos, sceneOrigin)
      ensures LocalAnchor(a) == Minus(GlobalAnchor(a), origin)
      ensures SceneAnchor(a) == Minus(GlobalAnchor(a), sceneOrigin)
    {
    }

    /** timeHeld(): seconds between the press and this event. The
        subtraction is on `ulong` and wraps when the event's timestamp is
        earlier than the press timestamp. */
    function TimeHeld(): (r: real)
      reads this
      ensures 0.0 <= r
      ensures pressTimestamp <= timestamp ==>
                r * 1000.0 == (timestamp as int - pressTimestamp as int) as real
      ensures timestamp < pressTimestamp ==>
                r * 1000.0 == (ULongModulus + timestamp as int - pressTimestamp as int) as real
    {
      ULongSub(timestamp, pressTimestamp) as real / 1000.0
    }

    /** exclusiveGrabber(): the grabber read through its QPointer. */
    function ExclusiveGrabber(live: set<ObjId>): (r: ObjRef)
      reads this
      ensures r.Some? <==> exclusiveGrabber.Some? && exclusiveGrabber.value in live
      ensures r.Some? ==> r == exclusiveGrabber
    {
      Data(exclusiveGrabber, live)
    }

    /** setAccepted(accepted = true): called with no argument, it accepts
        the point. */
    method SetAccepted(accepted: bool := true)
      modifies this`accept
      ensures accept == accepted
    {
      accept := accepted;
    }

    /** setExclusiveGrabber(grabber): last write wins; a null grabber clears
        the grab. The grab anchor is taken where the point is now, so the
        derived grab positions equal the current positions. */
    method SetExclusiveGrabber(grabber: ObjRef)
      modifies this`exclusiveGrabber, this`globalGrabPos
      ensures exclusiveGrabber == grabber
      ensures globalGrabPos == globalPos
      ensures GrabPosition() == pos && SceneGrabPosition() == scenePos
      ensures forall live :: grabber.Some? && grabber.value in live ==> ExclusiveGrabber(live) == grabber
      ensures forall live :: grabber.Some? && grabber.value !in live ==> ExclusiveGrabber(live) == None
    {
      exclusiveGrabber := grabber;
      globalGrabPos := globalPos;
    }

    /** setPassiveGrabbers(grabbers): replaces the whole list, keeping
        order and duplicates. */
    method SetPassiveGrabbers(grabbers: seq<ObjRef>)
      modifies this`passiveGrabbers
      ensures passiveGrabbers == grabbers
    {
      passiveGrabbers := grabbers;
    }

    /** clearPassiveGrabbers() */
    method ClearPassiveGrabbers()
      modifies this`passiveGrabbers
      ensures passiveGrabbers == []
    {
      SetPassiveGrabbers([]);
    }
  }

  /** A receiver that moves during a press: pressed at global (10,10);
      the receiver's origin is now at global (5,5) and the point at global
      (12,10), local (7,5). The local press position is (5,5), the press
      point seen from the receiver's new origin. */
  lemma MovedReceiverScenario(p: EventPoint)
    requires p.globalPressPos == PointF(10.0, 10.0)
    requires p.globalPos == PointF(12.0, 10.0)
    requires p.pos == PointF(7.0, 5.0)
    ensures p.PressPosition() == PointF(5.0, 5.0)
  {
  }
}

=== FILE: handles.dfy ===
/** Non-owning references into the external QObject graph.

    A grabber is stored as a QPointer<QObject>: the raw object reference
    it was given (or null). Reading it through `data()` yields the object
    while it is alive and null once it has been destroyed. The object graph
    itself is outside the model: its state is the set `live` of objects not
    yet destroyed. Object identities are never reused, so an object that has
    left `live` never comes back, and a guarded reference to it stays null. */
module Handles {
  import opened Types

  /** Identity of an object in the external object graph. */
  type ObjId = nat

  /** A raw `QObject *` (None is the null pointer); a QPointer stores one. */
  type ObjRef = Option<ObjId>

  /** QPointer<QObject>::data(): the referenced object while it is alive,
      otherwise null; it never yields an object that has been destroyed. */
  function Data(w: ObjRef, live: set<ObjId>): (r: ObjRef)
    ensures r.Some? <==> w.Some? && w.value in live
    ensures r.Some? ==> r == w && r.value in live
  {
    if w.Some? && w.value in live then w else None
  }

  /** What a consumer sees when it walks a list of QPointer<QObject> and
      reads each element: one entry per element, in the same order, each the
      element read through `data()`. */
  function ReadAll(ws: seq<ObjRef>, live: set<ObjId>): (r: seq<ObjRef>)
    ensures |r| == |ws|
    ensures forall k :: 0 <= k < |ws| ==> r[k] == Data(ws[k], live)
  {
    if ws == [] then [] else [Data(ws[0], live)] + ReadAll(ws[1..], live)
  }

  /** Destroying object `o` turns every guarded reference to it into null
      and leaves every other reference reading as before. */
  lemma DestroyClearsOnlyThatObject(w: ObjRef, live: set<ObjId>, o: ObjId)
    ensures w == Some(o) ==> Data(w, live - {o}) == None
    ensures w != Some(o) ==> Data(w, live - {o}) == Data(w, live)
  {
  }

  /** The same for a whole list of passive grabbers: after `o` is destroyed
      the list reads with the same length and order, no entry yields `o`,
      and entries that did not refer to `o` read exactly as before. */
  lemma DestroyInList(ws: seq<ObjRef>, live: set<ObjId>, o: ObjId)
    ensures |ReadAll(ws, live - {o})| == |ws|
    ensures Some(o) !in ReadAll(ws, live - {o})
    ensures forall k :: 0 <= k < |ws| && ws[k] != Some(o) ==>
              ReadAll(ws, live - {o})[k] == ReadAll(ws, live)[k]
  {
  }
}

=== FILE: pointer_event.dfy ===
/** QInputEvent, QPointerEvent and its two shapes.

    A pointer event carries the input-event envelope (device, keyboard
    modifiers, timestamp) and either exactly one point (QSinglePointEvent
    and its subclasses: mouse, enter, hover, wheel, tablet, native gesture)
    or a list of points (QTouchEvent). The envelope's modifiers and
    timestamp have setters; the device and the points are fixed when the
    event is built. The points' own acceptance and grab fields are still
    written during delivery, through the delivery layer's own mutable access
    to the points: point(i) and touchPoints() hand out const references. */
module PointerEvents {
  import opened Types
  import opened Qt
  import opened Handles
  import opened EventPoints

  /** The fields each QSinglePointEvent subclass adds. */
  datatype SinglePointKind =
    | MouseEvent
    | EnterEvent
    | HoverEvent(oldPosF: PointF)
    | WheelEvent(pixelDelta: Point, angleDelta: Point, phase: ScrollPhase,
                 inverted: bool, source: MouseEventSource)
    | TabletEvent(xTilt: int, yTilt: int, z: int, tangentialPressure: real)
    | NativeGestureEvent(gestureType: NativeGestureType, value: real,
                         sequenceId: ULong, intArgument: nat)

  /** The two shapes of QPointerEvent. The defaults are the constructors'
      own: the button and the button mask default to none, and a touch
      event's point list to empty. */
  datatype Shape =
    | SinglePoint(point: EventPoint, kind: SinglePointKind,
                  button: MouseButton := NoButton, buttons: MouseButtons := {})
    | Touch(touchPoints: seq<EventPoint> := [], touchPointStates: States := {},
            target: ObjRef := None)

  class PointerEvent {
    const device: Option<InputDevice>
    var modifiers: KeyboardModifiers
    var timestamp: ULong
    const shape: Shape

    /** Built by the platform layer from the point(s), a device and the
        modifiers. The device defaults to none, which is QTouchEvent's
        default; a single-point event is to be given its device, since the
        model has no primaryPointingDevice(). The modifiers default to
        NoModifier. The constructor body is not modelled, so the timestamp
        is unconstrained until setTimestamp() is called. */
    constructor (shape: Shape, device: Option<InputDevice> := None,
                 modifiers: KeyboardModifiers := {})
      requires shape.Touch? ==>
        forall i, j :: 0 <= i < j < |shape.touchPoints| ==>
          shape.touchPoints[i] != shape.touchPoints[j]
      ensures this.device == device && this.modifiers == modifiers && this.shape == shape
      ensures Valid()
    {
      this.device := device;
      this.modifiers := modifiers;
      this.shape := shape;
    }

    /** The points of a touch event are distinct objects: QList holds its
        QEventPoints by value. */
    ghost predicate Valid()
    {
      shape.Touch? ==>
        forall i, j :: 0 <= i < j < |shape.touchPoints| ==>
          shape.touchPoints[i] != shape.touchPoints[j]
    }

    /** deviceType(): the device's type, Unknown when there is no device. */
    function DeviceType(): (t: DeviceType)
      ensures device == None ==> t == UnknownDevice
      ensures device != None ==> t == device.value.deviceType
    {
      if device.Some? then device.value.deviceType else UnknownDevice
    }

    /** pointerType(): the pointing device's pointer type, Unknown when
        there is no device. */
    function PointerType(): (t: PointerType)
      ensures device == None ==> t == UnknownPointer
      ensures device != None ==> t == device.value.pointerType
    {
      if device.Some? then device.value.pointerType else UnknownPointer
    }

    /** setModifiers(m): modifiers() reads back m; nothing else changes. */
    method SetModifiers(m: KeyboardModifiers)
      modifies this`modifiers
      ensures modifiers == m
      ensures timestamp == old(timestamp)
    {
      modifiers := m;
    }

    /** setTimestamp(t): timestamp() reads back t; nothing else changes. */
    method SetTimestamp(t: ULong)
      modifies this`timestamp
      ensures timestamp == t
      ensures modifiers == old(modifiers)
    {
      timestamp := t;
    }

    /** pointCount(): one for a single-point event, the list's length for
        a touch event. */
    function PointCount(): (n: nat)
      ensures shape.SinglePoint? ==> n == 1
      ensures shape.Touch? ==> n == |shape.touchPoints|
    {
      match shape
      case SinglePoint(_, _, _, _) => 1
      case Touch(ps, _, _) => |ps|
    }

    /** point(i): the only valid index of a single-point event is 0; a
        touch event's i-th point is the i-th stored point. */
    function Point(i: int): (p: EventPoint)
      requires 0 <= i < PointCount()
      ensures shape.SinglePoint? ==> i == 0 && p == shape.point
      ensures shape.Touch? ==> p == shape.touchPoints[i]
    {
      match shape
      case SinglePoint(pt, _, _, _) => pt
      case Touch(ps, _, _) => ps[i]
    }

    /** touchPoints(): exactly the points that pointCount() and point(i)
        expose, in the same order. */
    function TouchPoints(): (ps: seq<EventPoint>)
      requires shape.Touch?
      ensures |ps| == PointCount()
      ensures forall i :: 0 <= i < |ps| ==> ps[i] == Point(i)
    {
      shape.touchPoints
    }

    /** QSinglePointEvent::position() forwards to point(0). */
    function Position(): (r: PointF)
      requires shape.SinglePoint?
      reads shape.point
      ensures r == Point(0).pos
    {
      shape.point.pos
    }

    /** QSinglePointEvent::scenePosition() forwards to point(0). */
    function ScenePosition(): (r: PointF)
      requires shape.SinglePoint?
      reads shape.point
      ensures r == Point(0).scenePos
    {
      shape.point.scenePos
    }

    /** QSinglePointEvent::globalPosition() forwards to point(0). */
    function GlobalPosition(): (r: PointF)
      requires shape.SinglePoint?
      reads shape.point
      ensures r == Point(0).globalPos
    {
      shape.point.globalPos
    }

    /** QTabletEvent::pressure() forwards to point(0). */
    function Pressure(): (r: real)
      requires shape.SinglePoint? && shape.kind.TabletEvent?
      reads shape.point
      ensures r == Point(0).pressure
    {
      shape.point.pressure
    }

    /** QTabletEvent::rotation() forwards to point(0). */
    function Rotation(): (r: real)
      requires shape.SinglePoint? && shape.kind.TabletEvent?
      reads shape.point
      ensures r == Point(0).rotation
    {
      shape.point.rotation
    }
  }

  /** What the delivery layer does, through its own mutable access to the
      point that point(i) reads, when it sets that point's acceptance flag.
      Every other point of the event keeps all its fields, and the event's
      envelope is untouched. */
  method AcceptPoint(e: PointerEvent, i: int, accepted: bool)
    requires e.Valid() && 0 <= i < e.PointCount()
    modifies e.Point(i)`accept
    ensures e.Point(i).accept == accepted
    ensures forall j :: 0 <= j < e.PointCount() && j != i ==> unchanged(e.Point(j))
  {
    var p := e.Point(i);
    p.SetAccepted(accepted);
  }

  /** The same for the exclusive grab of point(i): the other points of the
      event keep their grabbers and all other fields. */
  method GrabPoint(e: PointerEvent, i: int, grabber: ObjRef)
    requires e.Valid() && 0 <= i < e.PointCount()
    modifies e.Point(i)`exclusiveGrabber, e.Point(i)`globalGrabPos
    ensures e.Point(i).exclusiveGrabber == grabber
    ensures e.Point(i).GrabPosition() == e.Point(i).pos
    ensures forall j :: 0 <= j < e.PointCount() && j != i ==> unchanged(e.Point(j))
  {
    var p := e.Point(i);
    p.SetExclusiveGrabber(grabber);
  }
}

=== FILE: qt.dfy ===
/** Enumerations of the Qt namespace and of QInputDevice/QPointingDevice
    that the events carry. Flag types are sets of their single flags; the
    empty set is the "No..." value. */
module Qt {

  /** Qt::KeyboardModifier; Qt::KeyboardModifiers is a set of these. */
  datatype KeyboardModifier =
    | ShiftModifier | ControlModifier | AltModifier | MetaModifier
    | KeypadModifier | GroupSwitchModifier
  type KeyboardModifiers = set<KeyboardModifier>

  /** Qt::MouseButton; Qt::MouseButtons is a set of the real buttons.
      `NoButton` is the empty mask, so it is never a member. */
  datatype MouseButton =
    | NoButton | LeftButton | RightButton | MiddleButton
    | BackButton | ForwardButton | TaskButton | ExtraButton(n: nat)
  type MouseButtons = s: set<MouseButton> | NoButton !in s

  /** QInputDevice::DeviceType */
  datatype DeviceType =
    | UnknownDevice | Mouse | TouchScreen | TouchPad | Puck | Stylus
    | Airbrush | Keyboard

  /** QPointingDevice::PointerType */
  datatype PointerType =
    | UnknownPointer | Generic | Finger | Pen | Eraser | Cursor

  /** An input device as the events see it: what `type()` and
      `pointerType()` report for it. */
  datatype InputDevice = InputDevice(deviceType: DeviceType, pointerType: PointerType)

  /** Qt::ScrollPhase */
  datatype ScrollPhase = NoScrollPhase | ScrollBegin | ScrollUpdate | ScrollEnd | ScrollMomentum

  /** Qt::MouseEventSource */
  datatype MouseEventSource =
    | MouseEventNotSynthesized | MouseEventSynthesizedBySystem
    | MouseEventSynthesizedByQt | MouseEventSynthesizedByApplication

  /** Qt::NativeGestureType */
  datatype NativeGestureType =
    | BeginNativeGesture | EndNativeGesture | PanNativeGesture | ZoomNativeGesture
    | SmartZoomNativeGesture | RotateNativeGesture | SwipeNativeGesture

  /** Qt::DropAction; Qt::DropActions is a set of these. `IgnoreAction`
      is the empty mask, so it is never a member. */
  datatype DropAction = IgnoreAction | CopyAction | MoveAction | LinkAction | TargetMoveAction
  type DropActions = s: set<DropAction> | IgnoreAction !in s
}

=== FILE: types.dfy ===
/** Basic value types shared by the event model: an Option, the C `ulong`
    used for timestamps, and the geometry value classes QPointF, QSizeF,
    QVector2D, QPoint and QRect. Floating-point coordinates are exact reals. */
module Types {

  datatype Option<+T> = None | Some(value: T)

  /** The number of distinct `ulong` values (an LP64 platform: 64 bits). */
  const ULongModulus: int := 0x1_0000_0000_0000_0000

  /** C++ `ulong`: an unsigned 64-bit integer. */
  newtype ULong = x: int | 0 <= x < ULongModulus

  /** `a - b` on `ulong`, which wraps modulo 2^64. */
  function ULongSub(a: ULong, b: ULong): (r: ULong)
    ensures b <= a ==> r as int == a as int - b as int
    ensures a < b ==> r as int == ULongModulus + a as int - b as int
  {
    ((a as int - b as int) % ULongModulus) as ULong
  }

  /** QPointF, with exact real coordinates. */
  datatype PointF = PointF(x: real, y: real)

  /** QPointF::operator+ */
  function Plus(a: PointF, b: PointF): PointF
  {
    PointF(a.x + b.x, a.y + b.y)
  }

  /** QPointF::operator- */
  function Minus(a: PointF, b: PointF): PointF
  {
    PointF(a.x - b.x, a.y - b.y)
  }

  /** QSizeF */
  datatype SizeF = SizeF(width: real, height: real)

  /** QVector2D */
  datatype Vector2D = Vector2D(x: real, y: real)

  /** QPoint (integer coordinates) */
  datatype Point = Point(x: int, y: int)

  /** QRect */
  datatype Rect = Rect(x: int, y: int, width: int, height: int)
}
